=== FILE: README.md ===
# webpack-tree: the "why was this module included" walk, in Dafny

The tool reads a webpack build-statistics file and, for one module id, prints a
tree. The tree explains why the bundler included that module. Each module lists
its `reasons`. A reason points back at the module that required it. The tool
follows those back-edges depth first. It prints one line per visited module and
one marker line where a branch stops at a cycle or at a reason that names no
module of the build.

This project models the already-parsed statistics and that walk:

- `Stats` holds the parsed records (`Reason`, `Module`, `BuildResult`) and
  `find_module_by_id`. The lookup is a linear scan that returns the first module
  whose id matches.
- `ReasonTree` holds `traverse_reasons` as three mutually recursive functions:
  - `Render` handles one module.
  - `RenderReason` handles one reason.
  - `RenderReasons` handles the reasons in order.
  Together they return the printed lines as structured `Lines.Line` values
  instead of writing to standard output.
- `Lines` gives the exact characters of each line. This is the text of the
  `println!` format strings with the colours removed.
- `Query.WhyIncluded` is the root lookup and first call in `main`. It returns
  `None` when the root id is absent; the program panics in `unwrap()` there
  before printing anything.
- `Branches` proves the per-branch path semantics:
  - Siblings are rendered independently.
  - A module named by two reasons of one parent is printed under both.
  - Only the set of ancestors matters, not their order.
  - One descent keeps a path of distinct build ids valid. `Chains` extends this
    by induction: starting from the empty path, every path the walk builds holds
    distinct ids of the build.
- `Chains` follows chains of reasons down the tree:
  - The module at the end of a chain has its whole subtree printed inside the
    output of the chain's start module.
  - Two chains that part ways print their ends in two separate places, in
    reason order.
  - So a module reached through two different chains is printed under each.
  - Conversely, every header in the output is the end of some chain, so the walk
    prints no module that its chains do not reach.
- `Scenarios` evaluates six concrete inputs exactly: a two-module cycle, a
  reason with no module id, a dangling reason, an unknown root, a diamond and
  duplicate ids.

Termination on cyclic graphs is what Dafny checks for `Render`. The measure is
the number of the build's ids not yet on the path. A module recurses into its
reasons only when its id is not on the path, and its id is an id of the build,
so each descent removes one id from that count (`PushShrinks`). `RenderBounded`
turns this into an output bound: no header is more than two columns per
unvisited id deeper than its caller. From the root this means no line after
the first is indented by more than `2 * |ids| + 3` columns. The first line is
the root's `name (id)`, which has no bullet, so its leading blanks are those
of the name.

Two behaviours of the code worth stating plainly:

- On duplicate ids the first module in file order wins: the scan stops at the
  first match.
- The circular-dependency marker is padded to `level + 2` columns and then one
  more blank. The header of the module met again is printed before the marker.

## Model

| member | source | states |
|---|---|---|
| Stats.FindModuleById | src/main.rs:29-31 | The result is present exactly when some module has the id. The result is the module at the earliest position holding that id. |
| Stats.FindFirstWins | src/main.rs:29-30 | If no earlier module shares the id of module `i`, looking up that id returns module `i`. So on duplicate ids the first one wins. |
| Stats.FindAppend | src/main.rs:29-30 | Modules appended after a match never change the lookup. When the id is not in the front part, the lookup finds exactly what the back part alone would give. |
| ReasonTree.PushShrinks | src/main.rs:55-59 | Pushing an id of the build that is not yet on the path lowers the count of unvisited ids by exactly one. This is why the walk terminates on cyclic graphs. |
| ReasonTree.Render | src/main.rs:49-63 | The first line is the module's header at `level`. If the id is already on the path, the output is exactly that header followed by the circular marker at `level + 2`, and no reason is visited. Otherwise every reason contributes at least one line. Every line after the header is at least two columns deeper. |
| ReasonTree.RenderReason | src/main.rs:61-66 | A reason yields exactly one `<End>` line at its column if and only if it has no module id or its id is not in the build. Otherwise its first line is the header of the first module with that id. |
| ReasonTree.RenderReasons | src/main.rs:60-68 | Each reason yields at least one line, and no line is shallower than the reasons' column. |
| ReasonTree.RenderBounded | src/main.rs:49-69 | Every line lies between `level` and `level + 2 * unvisited + 2`, and every header lies within `level + 2 * unvisited`. Every header names a module of the build. |
| ReasonTree.ReasonBounded | src/main.rs:61-66 | The same depth and naming bounds hold for the lines of one reason. |
| ReasonTree.ReasonsBounded | src/main.rs:60-68 | The same depth and naming bounds hold for the lines of a sequence of reasons. |
| Branches.RenderReasonsAppend | src/main.rs:59-68 | The lines of `front + back` are the lines of `front` followed by those of `back`, both rendered with the parent's path. Ids pushed while rendering one reason are never seen by the next. |
| Branches.BlockOfReason | src/main.rs:60-68 | The lines of reason `i` appear in the output contiguously, right after the lines of the reasons before it. |
| Branches.BlocksInOrder | src/main.rs:60-68 | The block of an earlier reason ends before the block of a later reason begins. |
| Branches.ReasonsRepeatTarget | src/main.rs:59-63 | When two reasons name the same module, that module's subtree occurs twice, without overlap, in the reasons' output. |
| Branches.RenderedOnEveryBranch | src/main.rs:59-63 | The sibling case: a module reached through two reasons of the same parent has its whole subtree printed twice. The second copy is not cut short by the first. |
| Branches.RenderPathAsSet | src/main.rs:55-63 | Two paths with the same ids give the same output. Cycle detection depends only on which ids are ancestors. |
| Branches.ReasonsPathAsSet | src/main.rs:59-68 | The same holds for a sequence of reasons. |
| Branches.DescendKeepsPathValid | src/main.rs:55-59 | Descending from a path of distinct build ids into a module not on it gives a path of distinct build ids. That path is no longer than the number of ids in the build. |
| Chains.ChainPathValid | src/main.rs:55-63 | Following any chain of resolved reasons from a path of distinct build ids, the path at the chain's end still holds distinct build ids. |
| Chains.RootChainPathValid | src/main.rs:55-63 | Starting from the root's empty path, the path at the end of any chain holds distinct build ids. So neither that path nor the chain is longer than the number of ids in the build. |
| Chains.ChildBlock | src/main.rs:59-63 | The subtree of a resolved reason `i` occurs inside its parent's output. It starts right after the header and the lines of the reasons before `i`. |
| Chains.ChainOccurs | src/main.rs:55-63 | For every chain of resolved reasons whose modules are not yet on their paths, the end module's whole subtree occurs in the start module's output. Its path is the start path plus the chain's ids, and its column is two per step deeper. |
| Chains.HeaderIsChainEnd | src/main.rs:49-68 | The converse of `ChainOccurs`: every header line of a module's output sits at the offset of the end of some chain of resolved reasons from that module. So nothing is printed for a module that no chain reaches. |
| Chains.PartedChainsDisjoint | src/main.rs:59-63 | Two chains that share their first `k` steps and then take reasons `i < j` print their ends in separate places. The first end's whole subtree comes before the second's. |
| Chains.PrintedOnEveryChain | src/main.rs:59-63 | A module reached through two different chains, however high up they split, has its header printed twice, at the end of each chain. Both copies are at distinct lines, in reason order. |
| Chains.EndsAgree | src/main.rs:29-30 | Two chains ending at the same id end at the same module, the first one in the list with that id. |
| Lines.TextShowsColumn | src/main.rs:50-66 | For every non-root line, the printed text starts with exactly as many blanks as its column. The next character is `-` for a header or an end marker and `<` for a circular marker. |
| Lines.Text | src/main.rs:50-66 | A definition with no contract of its own: the plain characters of each `println!` format. A root header is `name (id)`. A deeper header is `level` blanks, then `- name (id)`. The circular marker is `level` blanks, one more blank, then `<Circular dependency>`. The end marker is `level` blanks, then `- <End>`. `Lines.TextShowsColumn` and `Scenarios.HeaderText` are the lemmas about it. |
| Query.WhyIncluded | src/main.rs:89-91 | The result is `None` exactly when no module has the root id. Otherwise the first line is `name (id)` of the first module with that id. Every later line is indented by at least 2 and at most `2 * (number of ids) + 3` blanks. |
| Scenarios.CycleStops | src/main.rs:49-68 | With A requiring B and B requiring A, querying A prints A, then B, then A again, then the circular marker. Nothing more is printed. |
| Scenarios.BoundaryEnds | src/main.rs:61-66 | A reason with no module id, and a reason naming an unknown module, both print `  - <End>` under the root. |
| Scenarios.UnknownRootFails | src/main.rs:89-91 | An unknown root yields `None`, so no line is printed. |
| Scenarios.DiamondPrintsSharedModuleTwice | src/main.rs:59-63 | With A requiring B and C, and both requiring D, D is printed under B and again under C. |
| Scenarios.DuplicateIdFirstWins | src/main.rs:29-30 | Of two modules sharing the root id, the one listed first is printed. |

## Left out

- Argument-count check, usage message and exit status (src/main.rs:72-77): command-line glue.
- Opening and reading the file and JSON parsing (src/main.rs:79-87): I/O and a foreign library. The model starts from the parsed `BuildResult`.
- Colours (`green`, `bold`, `red`, `blue`): cosmetic. `Lines.Text` gives the plain characters.
- The hand-written `Clone` implementations (src/main.rs:33-47): field copies, which immutable datatypes make unnecessary.
- `identifier` and `userRequest`: kept in the datatypes, but the walk never reads them, so no property is stated about them.
- `unwrap()` panics: the only one reachable on parsed input is the missing root. It is modelled as `None`.
- Writing to standard output: the walk returns its lines in printing order instead of emitting them.
- `level` is a `usize` in the source and a `nat` here. Overflow is not modelled, because `RenderBounded` shows the depth never exceeds `2 * (number of ids) + 2`.
- A count of circular markers over a whole cyclic graph is not stated. `Render` states that a module already on its path prints exactly its header and one marker. `CycleStops` shows the whole output for a two-module cycle.
- Stack depth: the program recurses on the call stack, so a very deep reason chain could overflow it and abort after partial output. `Render` is a total function and does not model that limit.

=== FILE: branches.dfy ===
/**
 Properties of the per-branch path: siblings are rendered independently, a module
 reached along two chains is printed on both, only the set of ancestors matters,
 and one descent keeps a path of distinct build ids valid (`Chains.ChainPathValid`
 extends this to every path the walk builds from the root).
 */
module Branches {
  import opened Optional
  import opened Stats
  import opened Lines
  import opened ReasonTree

  /** Sibling independence: the lines of `front + back` are those of `front` followed
      by those of `back`, each rendered with the parent's path alone. */
  lemma {:induction false} RenderReasonsAppend(modules: seq<Module>, front: seq<Reason>, back: seq<Reason>, path: seq<string>, level: nat)
    ensures RenderReasons(modules, front + back, path, level)
         == RenderReasons(modules, front, path, level) + RenderReasons(modules, back, path, level)
  {
    if |front| == 0 {
      assert front + back == back;
    } else {
      assert (front + back)[0] == front[0];
      assert (front + back)[1..] == front[1..] + back;
      RenderReasonsAppend(modules, front[1..], back, path, level);
    }
  }

  /** `b` occurs in `out` starting at position `p`. */
  predicate OccursAt(out: seq<Line>, b: seq<Line>, p: nat)
  {
    p + |b| <= |out| && out[p..p + |b|] == b
  }

  /** `b` occurs twice in `out`, the copies not overlapping. */
  predicate TwiceIn(out: seq<Line>, b: seq<Line>)
  {
    exists p: nat, q: nat :: p + |b| <= q <= |out| && OccursAt(out, b, p) && OccursAt(out, b, q)
  }

  /** The block of lines of reason `i` sits after the blocks of the reasons before it. */
  lemma {:induction false} BlockOfReason(modules: seq<Module>, rs: seq<Reason>, i: nat, path: seq<string>, level: nat)
    requires i < |rs|
    ensures OccursAt(RenderReasons(modules, rs, path, level), RenderReason(modules, rs[i], path, level),
                     |RenderReasons(modules, rs[..i], path, level)|)
  {
    assert rs == rs[..i] + rs[i..];
    RenderReasonsAppend(modules, rs[..i], rs[i..], path, level);
    assert RenderReasons(modules, rs[i..], path, level)
        == RenderReason(modules, rs[i], path, level) + RenderReasons(modules, rs[i + 1..], path, level) by {
      assert rs[i..][1..] == rs[i + 1..];
    }
  }

  /** Position `j` of the reasons' output lies in the block of some reason `i`. */
  lemma {:induction false} LocateReason(modules: seq<Module>, rs: seq<Reason>, path: seq<string>, level: nat, j: nat)
    returns (i: nat)
    requires j < |RenderReasons(modules, rs, path, level)|
    decreases |rs|
    ensures i < |rs|
    ensures |RenderReasons(modules, rs[..i], path, level)| <= j
            < |RenderReasons(modules, rs[..i], path, level)| + |RenderReason(modules, rs[i], path, level)|
  {
    var first := RenderReason(modules, rs[0], path, level);
    assert RenderReasons(modules, rs[..0], path, level) == [];
    if j >= |first| {
      var i' := LocateReason(modules, rs[1..], path, level, j - |first|);
      i := i' + 1;
      assert rs[..i][0] == rs[0] && rs[..i][1..] == rs[1..][..i'];
      assert rs[i] == rs[1..][i'];
    } else {
      i := 0;
    }
  }

  /** Blocks of earlier reasons end before later blocks begin. */
  lemma {:induction false} BlocksInOrder(modules: seq<Module>, rs: seq<Reason>, i: nat, j: nat, path: seq<string>, level: nat)
    requires i < j <= |rs|
    ensures |RenderReasons(modules, rs[..i], path, level)| + |RenderReason(modules, rs[i], path, level)|
         <= |RenderReasons(modules, rs[..j], path, level)|
  {
    assert rs[..j] == rs[..i + 1] + rs[i + 1..j];
    RenderReasonsAppend(modules, rs[..i + 1], rs[i + 1..j], path, level);
    assert rs[..i + 1] == rs[..i] + [rs[i]];
    RenderReasonsAppend(modules, rs[..i], [rs[i]], path, level);
    assert RenderReasons(modules, [rs[i]], path, level) == RenderReason(modules, rs[i], path, level) by {
      assert [rs[i]][1..] == [];
    }
  }

  /** Two reasons naming the same module yield two disjoint copies of its subtree. */
  lemma {:induction false} ReasonsRepeatTarget(modules: seq<Module>, rs: seq<Reason>, path: seq<string>, level: nat, i: nat, j: nat, target: Module)
    requires i < j < |rs|
    requires rs[i].moduleId == Some(target.id) && rs[j].moduleId == Some(target.id)
    requires FindModuleById(modules, target.id) == Some(target)
    ensures TwiceIn(RenderReasons(modules, rs, path, level), Render(modules, target, path, level))
  {
    ReasonOfTarget(modules, rs[i], target, path, level);
    ReasonOfTarget(modules, rs[j], target, path, level);
    BlockOfReason(modules, rs, i, path, level);
    BlockOfReason(modules, rs, j, path, level);
    BlocksInOrder(modules, rs, i, j, path, level);
    TwoOccurrences(RenderReasons(modules, rs, path, level), Render(modules, target, path, level),
                   |RenderReasons(modules, rs[..i], path, level)|, |RenderReasons(modules, rs[..j], path, level)|);
  }

  /** Per-branch cycle detection: when two reasons of a module name the same module,
      that module's whole subtree is printed twice, once under each reason, and the
      second copy is not cut short by the first. */
  lemma {:induction false} RenderedOnEveryBranch(modules: seq<Module>, m: Module, path: seq<string>, level: nat, i: nat, j: nat, target: Module)
    requires m in modules && m.id !in path
    requires i < j < |m.reasons|
    requires m.reasons[i].moduleId == Some(target.id) && m.reasons[j].moduleId == Some(target.id)
    requires FindModuleById(modules, target.id) == Some(target)
    ensures TwiceIn(Render(modules, m, path, level), Render(modules, target, path + [m.id], level + 2))
  {
    RenderDescends(modules, m, path, level);
    ReasonsRepeatTarget(modules, m.reasons, path + [m.id], level + 2, i, j, target);
    PrefixKeepsTwice(Header(level, m.name, m.id), RenderReasons(modules, m.reasons, path + [m.id], level + 2),
                     Render(modules, target, path + [m.id], level + 2));
  }

  lemma PrefixKeepsTwice(h: Line, kids: seq<Line>, b: seq<Line>)
    requires TwiceIn(kids, b)
    ensures TwiceIn([h] + kids, b)
  {
    var p: nat, q: nat :| p + |b| <= q <= |kids| && OccursAt(kids, b, p) && OccursAt(kids, b, q);
    ShiftOccurrence(h, kids, b, p);
    ShiftOccurrence(h, kids, b, q);
    TwoOccurrences([h] + kids, b, 1 + p, 1 + q);
  }

  lemma TwoOccurrences(out: seq<Line>, b: seq<Line>, p: nat, q: nat)
    requires p + |b| <= q && OccursAt(out, b, p) && OccursAt(out, b, q)
    ensures TwiceIn(out, b)
  {
  }

  lemma {:induction false} RenderDescends(modules: seq<Module>, m: Module, path: seq<string>, level: nat)
    requires m in modules && m.id !in path
    ensures Render(modules, m, path, level)
         == [Header(level, m.name, m.id)] + RenderReasons(modules, m.reasons, path + [m.id], level + 2)
  {
  }

  lemma {:induction false} ReasonOfTarget(modules: seq<Module>, r: Reason, target: Module, path: seq<string>, level: nat)
    requires r.moduleId == Some(target.id)
    requires FindModuleById(modules, target.id) == Some(target)
    ensures RenderReason(modules, r, path, level) == Render(modules, target, path, level)
  {
  }

  lemma ShiftOccurrence(h: Line, kids: seq<Line>, b: seq<Line>, p: nat)
    requires OccursAt(kids, b, p)
    ensures OccursAt([h] + kids, b, 1 + p)
  {
    assert ([h] + kids)[1 + p..1 + p + |b|] == kids[p..p + |b|];
  }

  /** Only membership in the path matters, not its order or repetitions. */
  lemma {:induction false} RenderPathAsSet(modules: seq<Module>, m: Module, p1: seq<string>, p2: seq<string>, level: nat)
    requires m in modules
    requires PathIds(p1) == PathIds(p2)
    decreases Unvisited(modules, p1), 0, 0
    ensures Render(modules, m, p1, level) == Render(modules, m, p2, level)
  {
    assert m.id in p1 <==> m.id in PathIds(p1);
    assert m.id in p2 <==> m.id in PathIds(p2);
    if m.id !in p1 {
      PushShrinks(modules, p1, m.id);
      assert PathIds(p1 + [m.id]) == PathIds(p2 + [m.id]) by {
        assert PathIds(p1 + [m.id]) == PathIds(p1) + {m.id};
        assert PathIds(p2 + [m.id]) == PathIds(p2) + {m.id};
      }
      ReasonsPathAsSet(modules, m.reasons, p1 + [m.id], p2 + [m.id], level + 2);
    }
  }

  lemma {:induction false} ReasonsPathAsSet(modules: seq<Module>, rs: seq<Reason>, p1: seq<string>, p2: seq<string>, level: nat)
    requires PathIds(p1) == PathIds(p2)
    decreases Unvisited(modules, p1), 1, |rs|
    ensures RenderReasons(modules, rs, p1, level) == RenderReasons(modules, rs, p2, level)
  {
    if |rs| > 0 {
      var r := rs[0];
      if r.moduleId.Some? && FindModuleById(modules, r.moduleId.value).Some? {
        RenderPathAsSet(modules, FindModuleById(modules, r.moduleId.value).value, p1, p2, level);
      }
      ReasonsPathAsSet(modules, rs[1..], p1, p2, level);
    }
  }

  /** A root-to-node path as the walk builds it: distinct ids, each of a module of the build. */
  predicate ValidPath(modules: seq<Module>, path: seq<string>)
  {
    && (forall i, j :: 0 <= i < j < |path| ==> path[i] != path[j])
    && PathIds(path) <= Ids(modules)
  }

  lemma {:induction false} DistinctPathSize(path: seq<string>)
    requires forall i, j :: 0 <= i < j < |path| ==> path[i] != path[j]
    ensures |PathIds(path)| == |path|
  {
    if |path| > 0 {
      var last := path[|path| - 1];
      var init := path[..|path| - 1];
      assert path == init + [last];
      assert PathIds(path) == PathIds(init) + {last};
      assert last !in PathIds(init);
      DistinctPathSize(init);
    }
  }

  /** The step that descends into a module (the path check and push before the reasons):
      a valid path stays valid and so never holds more ids than the build has. The
      induction over whole chains is `Chains.ChainPathValid`. */
  lemma DescendKeepsPathValid(modules: seq<Module>, m: Module, path: seq<string>)
    requires ValidPath(modules, path)
    requires m in modules && m.id !in path
    ensures ValidPath(modules, path + [m.id])
    ensures |path + [m.id]| <= |Ids(modules)|
  {
    var path' := path + [m.id];
    assert PathIds(path') == PathIds(path) + {m.id};
    DistinctPathSize(path');
    assert PathIds(path') <= Ids(modules);
    assert Ids(modules) == (Ids(modules) - PathIds(path')) + PathIds(path');
  }
}

=== FILE: chains.dfy ===
/**
 Chains of reasons from a module down into the tree. Every module reached along a
 chain whose ids are not yet on their paths has its whole subtree printed inside
 its ancestor's output, and two chains that part ways print their ends in two
 separate places, in reason order: cycle detection along one chain never hides a
 module that another chain reaches. Conversely, every header printed is the end of
 some chain.
 */
module Chains {
  import opened Optional
  import opened Stats
  import opened Lines
  import opened ReasonTree
  import opened Branches

  /** Where a chain ends: the module reached, the path it is rendered with and its column. */
  datatype Visit = Visit(target: Module, path: seq<string>, level: nat)

  /** The module reason `i` of `m` resolves to. */
  function Child(modules: seq<Module>, m: Module, i: nat): (c: Module)
    requires i < |m.reasons| && m.reasons[i].moduleId.Some?
    requires FindModuleById(modules, m.reasons[i].moduleId.value).Some?
    ensures c in modules && m.reasons[i].moduleId == Some(c.id)
  {
    FindModuleById(modules, m.reasons[i].moduleId.value).value
  }

  /** `idxs` picks, module by module, a reason that resolves to a module of the build;
      every module the chain leaves is not yet on its path, so the walk descends into it. */
  predicate Chain(modules: seq<Module>, m: Module, path: seq<string>, idxs: seq<nat>)
    decreases |idxs|
  {
    && m in modules
    && (|idxs| > 0 ==>
          && m.id !in path
          && idxs[0] < |m.reasons|
          && m.reasons[idxs[0]].moduleId.Some?
          && FindModuleById(modules, m.reasons[idxs[0]].moduleId.value).Some?
          && Chain(modules, Child(modules, m, idxs[0]), path + [m.id], idxs[1..]))
  }

  /** The module a chain reaches, with the path and column the walk renders it at. */
  function ChainEnd(modules: seq<Module>, m: Module, path: seq<string>, level: nat, idxs: seq<nat>): (v: Visit)
    requires Chain(modules, m, path, idxs)
    decreases |idxs|
    ensures v.target in modules
    ensures v.level == level + 2 * |idxs|
    ensures |v.path| == |path| + |idxs|
  {
    if |idxs| == 0 then Visit(m, path, level)
    else ChainEnd(modules, Child(modules, m, idxs[0]), path + [m.id], level + 2, idxs[1..])
  }

  /** The position in `m`'s output where the subtree at the chain's end starts: past the
      header and the blocks of earlier reasons, at every step. */
  function ChainOffset(modules: seq<Module>, m: Module, path: seq<string>, level: nat, idxs: seq<nat>): nat
    requires Chain(modules, m, path, idxs)
    decreases |idxs|
  {
    if |idxs| == 0 then 0
    else
      1 + |RenderReasons(modules, m.reasons[..idxs[0]], path + [m.id], level + 2)|
        + ChainOffset(modules, Child(modules, m, idxs[0]), path + [m.id], level + 2, idxs[1..])
  }

  /** The lines a chain's end prints. */
  function Subtree(modules: seq<Module>, v: Visit): seq<Line>
    requires v.target in modules
  {
    Render(modules, v.target, v.path, v.level)
  }

  /** A resolved reason's subtree sits inside its parent's output, after the header and the
      blocks of the reasons before it. */
  lemma {:induction false} ChildBlock(modules: seq<Module>, m: Module, path: seq<string>, level: nat, i: nat, c: Module)
    requires m in modules && m.id !in path
    requires i < |m.reasons|
    requires m.reasons[i].moduleId == Some(c.id)
    requires FindModuleById(modules, c.id) == Some(c)
    ensures OccursAt(Render(modules, m, path, level), Render(modules, c, path + [m.id], level + 2),
                     1 + |RenderReasons(modules, m.reasons[..i], path + [m.id], level + 2)|)
  {
    var path' := path + [m.id];
    RenderDescends(modules, m, path, level);
    BlockOfReason(modules, m.reasons, i, path', level + 2);
    ReasonOfTarget(modules, m.reasons[i], c, path', level + 2);
    ShiftOccurrence(Header(level, m.name, m.id), RenderReasons(modules, m.reasons, path', level + 2),
                    Render(modules, c, path', level + 2), |RenderReasons(modules, m.reasons[..i], path', level + 2)|);
  }

  /** An occurrence inside an occurrence is an occurrence. */
  lemma OccursTrans(a: seq<Line>, b: seq<Line>, c: seq<Line>, p: nat, q: nat)
    requires OccursAt(a, b, p) && OccursAt(b, c, q)
    ensures OccursAt(a, c, p + q)
  {
    forall k | 0 <= k < |c|
      ensures a[p + q + k] == c[k]
    {
      assert b[q + k] == c[k];
      assert a[p + (q + k)] == b[q + k];
    }
    assert a[p + q..p + q + |c|] == c;
  }

  /** Every module reached along a chain has its whole subtree printed in the chain's
      start module's output, at `ChainOffset`. */
  lemma {:induction false} ChainOccurs(modules: seq<Module>, m: Module, path: seq<string>, level: nat, idxs: seq<nat>)
    requires Chain(modules, m, path, idxs)
    decreases |idxs|
    ensures OccursAt(Render(modules, m, path, level),
                     Subtree(modules, ChainEnd(modules, m, path, level, idxs)),
                     ChainOffset(modules, m, path, level, idxs))
  {
    var out := Render(modules, m, path, level);
    if |idxs| == 0 {
      assert out[0..|out|] == out;
    } else {
      var i := idxs[0];
      var c := Child(modules, m, i);
      var p := 1 + |RenderReasons(modules, m.reasons[..i], path + [m.id], level + 2)|;
      ChildBlock(modules, m, path, level, i, c);
      ChainOccurs(modules, c, path + [m.id], level + 2, idxs[1..]);
      OccursTrans(out, Render(modules, c, path + [m.id], level + 2),
                  Subtree(modules, ChainEnd(modules, m, path, level, idxs)),
                  p, ChainOffset(modules, c, path + [m.id], level + 2, idxs[1..]));
    }
  }

  /** Two chains that agree on their first `k` steps and then take reasons `i < j` of the
      same module print their ends in two separate places, the first before the second. */
  lemma {:induction false} PartedChainsDisjoint(modules: seq<Module>, m: Module, path: seq<string>, level: nat,
                                                c1: seq<nat>, c2: seq<nat>, k: nat)
    requires Chain(modules, m, path, c1) && Chain(modules, m, path, c2)
    requires k < |c1| && k < |c2| && c1[..k] == c2[..k] && c1[k] < c2[k]
    decreases k
    ensures ChainOffset(modules, m, path, level, c1) + |Subtree(modules, ChainEnd(modules, m, path, level, c1))|
         <= ChainOffset(modules, m, path, level, c2)
  {
    var path' := path + [m.id];
    if k == 0 {
      var i, j := c1[0], c2[0];
      var ci := Child(modules, m, i);
      ChainOccurs(modules, ci, path', level + 2, c1[1..]);
      BlocksInOrder(modules, m.reasons, i, j, path', level + 2);
      ReasonOfTarget(modules, m.reasons[i], ci, path', level + 2);
    } else {
      assert c1[0] == c1[..k][0] == c2[..k][0] == c2[0];
      assert c1[1..][..k - 1] == c1[..k][1..] == c2[..k][1..] == c2[1..][..k - 1];
      PartedChainsDisjoint(modules, Child(modules, m, c1[0]), path', level + 2, c1[1..], c2[1..], k - 1);
    }
  }

  /** Line `p` of `out` is the header of module `t` at column `k`. */
  predicate HeaderAt(out: seq<Line>, p: nat, k: nat, t: Module)
  {
    p < |out| && out[p] == Header(k, t.name, t.id)
  }

  /** A module reached through two different chains is printed on both: its header
      appears at the end of each chain, at two different lines of the output. */
  lemma {:induction false} PrintedOnEveryChain(modules: seq<Module>, m: Module, path: seq<string>, level: nat,
                            c1: seq<nat>, c2: seq<nat>, k: nat)
    requires Chain(modules, m, path, c1) && Chain(modules, m, path, c2)
    requires k < |c1| && k < |c2| && c1[..k] == c2[..k] && c1[k] < c2[k]
    requires ChainEnd(modules, m, path, level, c1).target.id == ChainEnd(modules, m, path, level, c2).target.id
    ensures ChainOffset(modules, m, path, level, c1) < ChainOffset(modules, m, path, level, c2)
    ensures HeaderAt(Render(modules, m, path, level), ChainOffset(modules, m, path, level, c1),
                     level + 2 * |c1|, ChainEnd(modules, m, path, level, c1).target)
    ensures HeaderAt(Render(modules, m, path, level), ChainOffset(modules, m, path, level, c2),
                     level + 2 * |c2|, ChainEnd(modules, m, path, level, c1).target)
  {
    var out := Render(modules, m, path, level);
    var e1 := ChainEnd(modules, m, path, level, c1);
    var e2 := ChainEnd(modules, m, path, level, c2);
    ChainOccurs(modules, m, path, level, c1);
    ChainOccurs(modules, m, path, level, c2);
    PartedChainsDisjoint(modules, m, path, level, c1, c2, k);
    EndsAgree(modules, m, path, level, c1, c2);
    var p1 := ChainOffset(modules, m, path, level, c1);
    var p2 := ChainOffset(modules, m, path, level, c2);
    assert out[p1] == Subtree(modules, e1)[0];
    assert out[p2] == Subtree(modules, e2)[0];
  }

  /** A header below the first line lies inside the subtree of a resolved reason `i`,
      at position `q` of that subtree. */
  lemma {:induction false} HeaderInChild(modules: seq<Module>, m: Module, path: seq<string>, level: nat, p: nat)
    returns (i: nat, q: nat)
    requires m in modules && 0 < p
    requires p < |Render(modules, m, path, level)| && Render(modules, m, path, level)[p].Header?
    ensures m.id !in path && i < |m.reasons| && m.reasons[i].moduleId.Some?
    ensures FindModuleById(modules, m.reasons[i].moduleId.value).Some?
    ensures q < |Render(modules, Child(modules, m, i), path + [m.id], level + 2)|
    ensures Render(modules, Child(modules, m, i), path + [m.id], level + 2)[q].Header?
    ensures p == 1 + |RenderReasons(modules, m.reasons[..i], path + [m.id], level + 2)| + q
  {
    var path' := path + [m.id];
    RenderDescends(modules, m, path, level);
    var kids := RenderReasons(modules, m.reasons, path', level + 2);
    var j := p - 1;
    assert kids[j].Header?;
    i := LocateReason(modules, m.reasons, path', level + 2, j);
    var before := |RenderReasons(modules, m.reasons[..i], path', level + 2)|;
    q := j - before;
    var block := RenderReason(modules, m.reasons[i], path', level + 2);
    BlockOfReason(modules, m.reasons, i, path', level + 2);
    assert block[q] == kids[before + q];
    assert block != [End(level + 2)];
    ReasonOfTarget(modules, m.reasons[i], Child(modules, m, i), path', level + 2);
  }

  /** Prepending a resolved reason of a module not on its path to a chain of its child. */
  lemma {:induction false} ChainCons(modules: seq<Module>, m: Module, path: seq<string>, level: nat, i: nat, rest: seq<nat>)
    requires m in modules && m.id !in path && i < |m.reasons| && m.reasons[i].moduleId.Some?
    requires FindModuleById(modules, m.reasons[i].moduleId.value).Some?
    requires Chain(modules, Child(modules, m, i), path + [m.id], rest)
    ensures Chain(modules, m, path, [i] + rest)
    ensures ChainOffset(modules, m, path, level, [i] + rest)
         == 1 + |RenderReasons(modules, m.reasons[..i], path + [m.id], level + 2)|
              + ChainOffset(modules, Child(modules, m, i), path + [m.id], level + 2, rest)
  {
    assert ([i] + rest)[0] == i && ([i] + rest)[1..] == rest;
  }

  /** Every header in a module's output is the head of the subtree at the end of some
      chain: the walk prints nothing but the modules its chains reach (the converse of
      `ChainOccurs`). */
  lemma {:induction false} HeaderIsChainEnd(modules: seq<Module>, m: Module, path: seq<string>, level: nat, p: nat)
    requires m in modules
    requires p < |Render(modules, m, path, level)| && Render(modules, m, path, level)[p].Header?
    decreases Unvisited(modules, path)
    ensures exists idxs :: Chain(modules, m, path, idxs) && ChainOffset(modules, m, path, level, idxs) == p
  {
    if p == 0 {
      assert Chain(modules, m, path, []) && ChainOffset(modules, m, path, level, []) == 0;
    } else {
      var i, q := HeaderInChild(modules, m, path, level, p);
      var c := Child(modules, m, i);
      PushShrinks(modules, path, m.id);
      HeaderIsChainEnd(modules, c, path + [m.id], level + 2, q);
      var rest :| Chain(modules, c, path + [m.id], rest) && ChainOffset(modules, c, path + [m.id], level + 2, rest) == q;
      ChainCons(modules, m, path, level, i, rest);
    }
  }

  /** Two chains ending at the same id end at the same module: the first one with that id. */
  lemma EndsAgree(modules: seq<Module>, m: Module, path: seq<string>, level: nat, c1: seq<nat>, c2: seq<nat>)
    requires Chain(modules, m, path, c1) && Chain(modules, m, path, c2)
    requires |c1| > 0 && |c2| > 0
    requires ChainEnd(modules, m, path, level, c1).target.id == ChainEnd(modules, m, path, level, c2).target.id
    ensures ChainEnd(modules, m, path, level, c1).target == ChainEnd(modules, m, path, level, c2).target
    ensures FindModuleById(modules, ChainEnd(modules, m, path, level, c1).target.id)
         == Some(ChainEnd(modules, m, path, level, c1).target)
  {
    EndIsFound(modules, m, path, level, c1);
    EndIsFound(modules, m, path, level, c2);
  }

  lemma {:induction false} EndIsFound(modules: seq<Module>, m: Module, path: seq<string>, level: nat, idxs: seq<nat>)
    requires Chain(modules, m, path, idxs) && |idxs| > 0
    decreases |idxs|
    ensures var t := ChainEnd(modules, m, path, level, idxs).target;
            FindModuleById(modules, t.id) == Some(t)
  {
    var c := Child(modules, m, idxs[0]);
    if |idxs| > 1 {
      EndIsFound(modules, c, path + [m.id], level + 2, idxs[1..]);
    } else {
      assert ChainEnd(modules, m, path, level, idxs).target == c;
      assert FindModuleById(modules, c.id) == Some(c);
    }
  }

  /** Every path the walk hands down a chain keeps the `ValidPath` invariant: one
      `DescendKeepsPathValid` step per reason followed. */
  lemma {:induction false} ChainPathValid(modules: seq<Module>, m: Module, path: seq<string>, level: nat, idxs: seq<nat>)
    requires Chain(modules, m, path, idxs) && ValidPath(modules, path)
    decreases |idxs|
    ensures ValidPath(modules, ChainEnd(modules, m, path, level, idxs).path)
  {
    if |idxs| > 0 {
      DescendKeepsPathValid(modules, m, path);
      ChainPathValid(modules, Child(modules, m, idxs[0]), path + [m.id], level + 2, idxs[1..]);
    }
  }

  /** From the root (empty path), every path the walk builds holds distinct ids of the
      build, so no chain the walk follows is longer than the number of ids. */
  lemma RootChainPathValid(modules: seq<Module>, m: Module, level: nat, idxs: seq<nat>)
    requires Chain(modules, m, [], idxs)
    ensures ValidPath(modules, ChainEnd(modules, m, [], level, idxs).path)
    ensures |ChainEnd(modules, m, [], level, idxs).path| <= |Ids(modules)|
    ensures |idxs| <= |Ids(modules)|
  {
    ChainPathValid(modules, m, [], level, idxs);
    var p := ChainEnd(modules, m, [], level, idxs).path;
    DistinctPathSize(p);
    assert Ids(modules) == (Ids(modules) - PathIds(p)) + PathIds(p);
  }
}

=== FILE: lines.dfy ===
/**
 The lines the renderer prints. A `Line` records which of the three kinds of
 line was printed and the column width it was padded to; `Text` gives the exact
 characters of that line (without colour and without the newline).
 */
module Lines {

  /** `indent` is the width of the blank padding the format string was given. */
  datatype Line =
    | Header(indent: nat, name: string, id: string)
    | Circular(indent: nat)
    | End(indent: nat)

  const CircularMarker: string := "<Circular dependency>"
  const EndMarker: string := "<End>"

  /** `n` blanks. */
  function Spaces(n: nat): (s: string)
    ensures |s| == n
    ensures forall i :: 0 <= i < n ==> s[i] == ' '
  {
    if n == 0 then "" else " " + Spaces(n - 1)
  }

  /** The printed characters of one line. A header at width 0 is the root and has no
      bullet; the circular marker is padded to its width and then one more blank. */
  function Text(l: Line): string
  {
    match l
    case Header(k, name, id) =>
      if k == 0 then name + " (" + id + ")" else Spaces(k) + "- " + name + " (" + id + ")"
    case Circular(k) => Spaces(k) + " " + CircularMarker
    case End(k) => Spaces(k) + "- " + EndMarker
  }

  /** The number of leading blanks of a printed line. */
  function Indentation(s: string): nat
  {
    if |s| > 0 && s[0] == ' ' then 1 + Indentation(s[1..]) else 0
  }

  /** The column at which the visible content of a line starts. */
  function Column(l: Line): nat
  {
    if l.Circular? then l.indent + 1 else l.indent
  }

  lemma {:induction false} IndentationAfterSpaces(n: nat, s: string)
    requires |s| == 0 || s[0] != ' '
    ensures Indentation(Spaces(n) + s) == n
  {
    if n > 0 {
      assert (Spaces(n) + s)[1..] == Spaces(n - 1) + s;
      IndentationAfterSpaces(n - 1, s);
    }
  }

  /** Every non-root line shows its nesting: the leading blanks of its text are exactly
      its column, and the next character tells the kinds apart. */
  lemma TextShowsColumn(l: Line)
    requires !(l.Header? && l.indent == 0)
    ensures Indentation(Text(l)) == Column(l)
    ensures |Text(l)| > Column(l)
    ensures Text(l)[Column(l)] == (if l.Circular? then '<' else '-')
  {
    match l
    case Header(k, name, id) =>
      assert Text(l) == Spaces(k) + ("- " + name + " (" + id + ")");
      IndentationAfterSpaces(k, "- " + name + " (" + id + ")");
    case Circular(k) =>
      assert Text(l) == Spaces(k + 1) + CircularMarker by {
        assert Spaces(k + 1) == Spaces(k) + " ";
      }
      IndentationAfterSpaces(k + 1, CircularMarker);
    case End(k) =>
      assert Text(l) == Spaces(k) + ("- " + EndMarker);
      IndentationAfterSpaces(k, "- " + EndMarker);
  }

  /** The text of each line, in order (a definition, not a claim). */
  function Print(lines: seq<Line>): seq<string>
  {
    seq(|lines|, i requires 0 <= i < |lines| => Text(lines[i]))
  }
}

=== FILE: optional.dfy ===
/** The optional value used for absent JSON fields and for failed lookups. */
module Optional {

  datatype Option<+T> = None | Some(value: T)
}

=== FILE: query.dfy ===
/**
 The root query: look the requested id up among the build's modules and, when it
 is there, print the reason tree of that module from column 0 with an empty path.
 A missing root id fails before any line is produced.
 */
module Query {
  import opened Optional
  import opened Stats
  import opened Lines
  import opened ReasonTree

  /** Every non-root line's leading blanks lie within `[lo, hi]` (the circular marker
      one further, as it is padded with one extra blank). */
  lemma PrintedIndentation(lines: seq<Line>, lo: nat, hi: nat)
    requires lo > 0
    requires forall i :: 1 <= i < |lines| ==> lo <= lines[i].indent <= hi
    ensures forall i :: 1 <= i < |lines| ==> lo <= Indentation(Print(lines)[i]) <= hi + 1
  {
    forall i | 1 <= i < |lines|
      ensures lo <= Indentation(Print(lines)[i]) <= hi + 1
    {
      TextShowsColumn(lines[i]);
    }
  }

  /** The whole program after parsing: the printed lines, or `None` for an unknown root. */
  function WhyIncluded(build: BuildResult, rootId: string): (r: Option<seq<string>>)
    ensures r.None? <==> forall k :: 0 <= k < |build.modules| ==> build.modules[k].id != rootId
    ensures r.Some? ==> |r.value| >= 1
    ensures r.Some? ==>
      exists k :: 0 <= k < |build.modules| && build.modules[k].id == rootId &&
        (forall j :: 0 <= j < k ==> build.modules[j].id != rootId) &&
        r.value[0] == build.modules[k].name + " (" + rootId + ")"
    ensures r.Some? ==>
      forall i :: 1 <= i < |r.value| ==> 2 <= Indentation(r.value[i]) <= 2 * |Ids(build.modules)| + 3
  {
    match FindModuleById(build.modules, rootId)
    case None => None
    case Some(root) =>
      var lines := Render(build.modules, root, [], 0);
      assert Unvisited(build.modules, []) == |Ids(build.modules)| by {
        assert PathIds([]) == {};
        assert Ids(build.modules) - {} == Ids(build.modules);
      }
      RenderBounded(build.modules, root, [], 0);
      PrintedIndentation(lines, 2, 2 * |Ids(build.modules)| + 2);
      Some(Print(lines))
  }
}

=== FILE: reason_tree.dfy ===
/**
 The depth-first, pre-order "why was this module included" walk. Each module
 prints a header; a module already on the current root-to-node path prints a
 circular-dependency marker and stops; otherwise each reason in order either
 recurses into the module it names, two columns deeper, or prints an end marker
 when it names no module or one that is not in the build.

 The path is a value: every child receives its own extended copy, so cycle
 detection is per branch and siblings never see each other's ancestors.
 */
module ReasonTree {
  import opened Optional
  import opened Stats
  import opened Lines

  /** The ids on a path, as a set. */
  function PathIds(path: seq<string>): set<string>
  {
    set id | id in path
  }

  /** The ids of the build not yet on the path: the termination measure. */
  function Unvisited(modules: seq<Module>, path: seq<string>): nat
  {
    |Ids(modules) - PathIds(path)|
  }

  /** A header printed at `l` names a module of the build. */
  predicate NamesModule(modules: seq<Module>, l: Line)
  {
    l.Header? ==> exists m :: m in modules && m.id == l.id && m.name == l.name
  }

  /** Every line lies between `level` and the depth reachable with the ids left:
      headers at most `2 * unvisited` deeper, markers one hop further. */
  predicate WithinDepth(out: seq<Line>, level: nat, unvisited: nat)
  {
    forall i :: 0 <= i < |out| ==>
      && level <= out[i].indent
      && out[i].indent <= level + 2 * unvisited + 2
      && (out[i].Header? ==> out[i].indent <= level + 2 * unvisited)
  }

  /** Pushing a not-yet-visited id of the build removes exactly one id from the measure. */
  lemma PushShrinks(modules: seq<Module>, path: seq<string>, id: string)
    requires id in Ids(modules) && id !in path
    ensures Unvisited(modules, path + [id]) == Unvisited(modules, path) - 1
  {
    assert PathIds(path + [id]) == PathIds(path) + {id};
    assert Ids(modules) - PathIds(path) == (Ids(modules) - PathIds(path + [id])) + {id};
  }

  /** `traverse_reasons`: the lines printed for module `m` at column `level` with the
      ancestors `path`. */
  function Render(modules: seq<Module>, m: Module, path: seq<string>, level: nat): (out: seq<Line>)
    requires m in modules
    decreases Unvisited(modules, path), 0, 0
    ensures |out| >= 1 && out[0] == Header(level, m.name, m.id)
    ensures m.id in path ==> out == [Header(level, m.name, m.id), Circular(level + 2)]
    ensures m.id !in path ==> |out| >= 1 + |m.reasons|
    ensures forall i :: 1 <= i < |out| ==> out[i].indent >= level + 2
  {
    var header := Header(level, m.name, m.id);
    if m.id in path then
      [header, Circular(level + 2)]
    else
      PushShrinks(modules, path, m.id);
      [header] + RenderReasons(modules, m.reasons, path + [m.id], level + 2)
  }

  /** The lines one reason contributes under its module; `path` already holds the
      module's own id and `level` is the children's column. */
  function RenderReason(modules: seq<Module>, r: Reason, path: seq<string>, level: nat): (out: seq<Line>)
    decreases Unvisited(modules, path), 1, 0
    ensures |out| >= 1
    ensures out == [End(level)] <==> r.moduleId.None? || r.moduleId.value !in Ids(modules)
    ensures r.moduleId.Some? && r.moduleId.value in Ids(modules) ==>
      out[0] == Header(level, FindModuleById(modules, r.moduleId.value).value.name, r.moduleId.value)
    ensures forall i :: 0 <= i < |out| ==> out[i].indent >= level
  {
    match r.moduleId
    case None => [End(level)]
    case Some(id) =>
      match FindModuleById(modules, id)
      case None => [End(level)]
      case Some(target) => Render(modules, target, path, level)
  }

  /** The lines of a sequence of reasons, each rendered in order with the same path. */
  function RenderReasons(modules: seq<Module>, rs: seq<Reason>, path: seq<string>, level: nat): (out: seq<Line>)
    decreases Unvisited(modules, path), 2, |rs|
    ensures |out| >= |rs|
    ensures forall i :: 0 <= i < |out| ==> out[i].indent >= level
  {
    if |rs| == 0 then []
    else RenderReason(modules, rs[0], path, level) + RenderReasons(modules, rs[1..], path, level)
  }

  /** Termination made quantitative: every line lies within the depth reachable with
      the ids not yet on the path, and every header names a module of the build. */
  lemma {:induction false} RenderBounded(modules: seq<Module>, m: Module, path: seq<string>, level: nat)
    requires m in modules
    decreases Unvisited(modules, path), 0, 0
    ensures WithinDepth(Render(modules, m, path, level), level, Unvisited(modules, path))
    ensures forall l :: l in Render(modules, m, path, level) ==> NamesModule(modules, l)
  {
    if m.id !in path {
      PushShrinks(modules, path, m.id);
      ReasonsBounded(modules, m.reasons, path + [m.id], level + 2);
    }
  }

  lemma {:induction false} ReasonBounded(modules: seq<Module>, r: Reason, path: seq<string>, level: nat)
    decreases Unvisited(modules, path), 1, 0
    ensures WithinDepth(RenderReason(modules, r, path, level), level, Unvisited(modules, path))
    ensures forall l :: l in RenderReason(modules, r, path, level) ==> NamesModule(modules, l)
  {
    if r.moduleId.Some? && FindModuleById(modules, r.moduleId.value).Some? {
      RenderBounded(modules, FindModuleById(modules, r.moduleId.value).value, path, level);
    }
  }

  lemma {:induction false} ReasonsBounded(modules: seq<Module>, rs: seq<Reason>, path: seq<string>, level: nat)
    decreases Unvisited(modules, path), 2, |rs|
    ensures WithinDepth(RenderReasons(modules, rs, path, level), level, Unvisited(modules, path))
    ensures forall l :: l in RenderReasons(modules, rs, path, level) ==> NamesModule(modules, l)
  {
    if |rs| > 0 {
      ReasonBounded(modules, rs[0], path, level);
      ReasonsBounded(modules, rs[1..], path, level);
    }
  }
}

=== FILE: scenarios.dfy ===
/** Worked inputs: the exact output for a cycle, a boundary, a missing root, a diamond
    and duplicate ids. Each step of an evaluation is its own small lemma. */
module Scenarios {
  import opened Optional
  import opened Stats
  import opened Lines
  import opened ReasonTree
  import opened Query
  import opened Branches

  function Mod(id: string, reasons: seq<Reason>): Module
  {
    Module(id, id, id, reasons)
  }

  function By(id: string): Reason
  {
    Reason(Some(id), None)
  }

  /** A found root is rendered from column 0 with an empty path. */
  lemma {:induction false} RootRendered(build: BuildResult, rootId: string, root: Module)
    requires FindModuleById(build.modules, rootId) == Some(root)
    ensures WhyIncluded(build, rootId) == Some(Print(Render(build.modules, root, [], 0)))
  {
  }

  /** Printing is line by line. */
  lemma PrintedAs(lines: seq<Line>, texts: seq<string>)
    requires |lines| == |texts|
    requires forall i :: 0 <= i < |lines| ==> Text(lines[i]) == texts[i]
    ensures Print(lines) == texts
  {
  }

  /** A header below the root is its column of blanks, a bullet, the name and the id. */
  lemma HeaderText(k: nat, name: string, id: string)
    requires k > 0
    ensures Text(Header(k, name, id)) == Spaces(k) + "- " + name + " (" + id + ")"
  {
  }

  lemma {:induction false} OneReason(modules: seq<Module>, r: Reason, path: seq<string>, level: nat)
    ensures RenderReasons(modules, [r], path, level) == RenderReason(modules, r, path, level)
  {
    assert [r][1..] == [];
  }

  // A requires B and B requires A.

  function CycleModules(): seq<Module>
  {
    [Mod("A", [By("B")]), Mod("B", [By("A")])]
  }

  lemma {:induction false} CycleInner()
    ensures Render(CycleModules(), Mod("A", [By("B")]), ["A", "B"], 4) == [Header(4, "A", "A"), Circular(6)]
  {
  }

  lemma {:induction false} CycleMiddle()
    ensures Render(CycleModules(), Mod("B", [By("A")]), ["A"], 2)
         == [Header(2, "B", "B"), Header(4, "A", "A"), Circular(6)]
  {
    var ms := CycleModules();
    assert FindModuleById(ms, "A") == Some(ms[0]);
    RenderDescends(ms, ms[1], ["A"], 2);
    assert ["A"] + ["B"] == ["A", "B"];
    OneReason(ms, By("A"), ["A", "B"], 4);
    ReasonOfTarget(ms, By("A"), ms[0], ["A", "B"], 4);
    CycleInner();
  }

  lemma {:induction false} CycleOuter()
    ensures Render(CycleModules(), Mod("A", [By("B")]), [], 0)
         == [Header(0, "A", "A"), Header(2, "B", "B"), Header(4, "A", "A"), Circular(6)]
  {
    var ms := CycleModules();
    assert FindModuleById(ms, "B") == Some(ms[1]);
    RenderDescends(ms, ms[0], [], 0);
    assert [] + ["A"] == ["A"];
    OneReason(ms, By("B"), ["A"], 2);
    ReasonOfTarget(ms, By("B"), ms[1], ["A"], 2);
    CycleMiddle();
    var kids := [Header(2, "B", "B"), Header(4, "A", "A"), Circular(6)];
    assert RenderReasons(ms, ms[0].reasons, [] + ["A"], 2) == kids;
    assert [Header(0, "A", "A")] + kids == [Header(0, "A", "A"), Header(2, "B", "B"), Header(4, "A", "A"), Circular(6)];
  }

  lemma CycleText()
    ensures Print([Header(0, "A", "A"), Header(2, "B", "B"), Header(4, "A", "A"), Circular(6)])
         == ["A (A)", "  - B (B)", "    - A (A)", "       <Circular dependency>"]
  {
    var lines := [Header(0, "A", "A"), Header(2, "B", "B"), Header(4, "A", "A"), Circular(6)];
    assert Spaces(2) == "  ";
    assert Spaces(4) == "    ";
    HeaderText(2, "B", "B");
    HeaderText(4, "A", "A");
    assert Spaces(6) == "      ";
    assert Text(Circular(6)) == "       <Circular dependency>";
    PrintedAs(lines, ["A (A)", "  - B (B)", "    - A (A)", "       <Circular dependency>"]);
  }

  /** The re-encountered module is printed once more under B, then the marker, and the
      branch stops. */
  lemma {:induction false} CycleStops()
    ensures WhyIncluded(BuildResult(CycleModules()), "A")
         == Some(["A (A)", "  - B (B)", "    - A (A)", "       <Circular dependency>"])
  {
    var ms := CycleModules();
    assert FindModuleById(ms, "A") == Some(ms[0]);
    RootRendered(BuildResult(ms), "A", ms[0]);
    CycleOuter();
    CycleText();
  }

  // A single module whose one reason names no module, or an unknown one.

  lemma EndText()
    ensures Print([Header(0, "A", "A"), End(2)]) == ["A (A)", "  - <End>"]
  {
    assert Spaces(2) == "  ";
    assert Text(End(2)) == "  - <End>";
    PrintedAs([Header(0, "A", "A"), End(2)], ["A (A)", "  - <End>"]);
  }

  lemma {:induction false} BoundaryRender(r: Reason)
    requires r.moduleId.None? || r.moduleId == Some("Z")
    ensures Render([Mod("A", [r])], Mod("A", [r]), [], 0) == [Header(0, "A", "A"), End(2)]
  {
    var ms := [Mod("A", [r])];
    assert FindModuleById(ms, "Z") == None;
    RenderDescends(ms, ms[0], [], 0);
    assert [] + ["A"] == ["A"];
    OneReason(ms, r, ["A"], 2);
    assert RenderReason(ms, r, ["A"], 2) == [End(2)];
  }

  /** A reason without a module id, or naming a module that is not in the build, ends
      the branch with the same marker. */
  lemma {:induction false} BoundaryEnds(r: Reason)
    requires r.moduleId.None? || r.moduleId == Some("Z")
    ensures WhyIncluded(BuildResult([Mod("A", [r])]), "A") == Some(["A (A)", "  - <End>"])
  {
    var ms := [Mod("A", [r])];
    assert FindModuleById(ms, "A") == Some(ms[0]);
    RootRendered(BuildResult(ms), "A", ms[0]);
    BoundaryRender(r);
    EndText();
  }

  /** An unknown root produces no output at all. */
  lemma {:induction false} UnknownRootFails()
    ensures WhyIncluded(BuildResult([Mod("A", [])]), "X") == None
  {
    assert FindModuleById([Mod("A", [])], "X") == None;
  }

  // A requires B and C, and both require D.

  function DiamondModules(): seq<Module>
  {
    [Mod("A", [By("B"), By("C")]), Mod("B", [By("D")]), Mod("C", [By("D")]), Mod("D", [])]
  }

  lemma {:induction false} DiamondLeaf(via: string)
    requires via == "B" || via == "C"
    ensures Render(DiamondModules(), Mod("D", []), ["A", via], 4) == [Header(4, "D", "D")]
  {
    assert Mod("D", []) == DiamondModules()[3];
    RenderDescends(DiamondModules(), Mod("D", []), ["A", via], 4);
  }

  lemma {:induction false} DiamondSide(via: string)
    requires via == "B" || via == "C"
    ensures Render(DiamondModules(), Mod(via, [By("D")]), ["A"], 2) == [Header(2, via, via)] + [Header(4, "D", "D")]
  {
    var ms := DiamondModules();
    var m := Mod(via, [By("D")]);
    assert m == ms[1] || m == ms[2];
    assert FindModuleById(ms, "D") == Some(Mod("D", []));
    RenderDescends(ms, m, ["A"], 2);
    assert ["A"] + [via] == ["A", via];
    OneReason(ms, By("D"), ["A", via], 4);
    ReasonOfTarget(ms, By("D"), Mod("D", []), ["A", via], 4);
    DiamondLeaf(via);
  }

  lemma {:induction false} DiamondReasons()
    ensures RenderReasons(DiamondModules(), [By("B"), By("C")], ["A"], 2)
         == ([Header(2, "B", "B")] + [Header(4, "D", "D")]) + ([Header(2, "C", "C")] + [Header(4, "D", "D")])
  {
    var ms := DiamondModules();
    assert FindModuleById(ms, "B") == Some(ms[1]);
    assert FindModuleById(ms, "C") == Some(ms[2]);
    assert [By("B"), By("C")] == [By("B")] + [By("C")];
    RenderReasonsAppend(ms, [By("B")], [By("C")], ["A"], 2);
    OneReason(ms, By("B"), ["A"], 2);
    OneReason(ms, By("C"), ["A"], 2);
    ReasonOfTarget(ms, By("B"), ms[1], ["A"], 2);
    ReasonOfTarget(ms, By("C"), ms[2], ["A"], 2);
    DiamondSide("B");
    DiamondSide("C");
  }

  function DiamondLines(): seq<Line>
  {
    [Header(0, "A", "A")] + (([Header(2, "B", "B")] + [Header(4, "D", "D")]) + ([Header(2, "C", "C")] + [Header(4, "D", "D")]))
  }

  lemma {:induction false} DiamondOuter()
    ensures Render(DiamondModules(), Mod("A", [By("B"), By("C")]), [], 0) == DiamondLines()
  {
    var ms := DiamondModules();
    RenderDescends(ms, ms[0], [], 0);
    assert [] + ["A"] == ["A"];
    DiamondReasons();
  }

  lemma DiamondText()
    ensures Print(DiamondLines()) == ["A (A)", "  - B (B)", "    - D (D)", "  - C (C)", "    - D (D)"]
  {
    var lines := DiamondLines();
    assert lines == [Header(0, "A", "A"), Header(2, "B", "B"), Header(4, "D", "D"), Header(2, "C", "C"), Header(4, "D", "D")];
    assert Spaces(2) == "  ";
    assert Spaces(4) == "    ";
    HeaderText(2, "B", "B");
    HeaderText(2, "C", "C");
    HeaderText(4, "D", "D");
    PrintedAs(lines, ["A (A)", "  - B (B)", "    - D (D)", "  - C (C)", "    - D (D)"]);
  }

  /** D is reached through B and through C: it is printed under both. */
  lemma {:induction false} DiamondPrintsSharedModuleTwice()
    ensures WhyIncluded(BuildResult(DiamondModules()), "A")
         == Some(["A (A)", "  - B (B)", "    - D (D)", "  - C (C)", "    - D (D)"])
  {
    var ms := DiamondModules();
    assert FindModuleById(ms, "A") == Some(ms[0]);
    RootRendered(BuildResult(ms), "A", ms[0]);
    DiamondOuter();
    DiamondText();
  }

  /** With two modules sharing an id, the first one in the list is the one printed. */
  lemma {:induction false} DuplicateIdFirstWins()
    ensures WhyIncluded(BuildResult([Module("A", "./a1.js", "first", []), Module("A", "./a2.js", "second", [])]), "A")
         == Some(["first (A)"])
  {
    var ms := [Module("A", "./a1.js", "first", []), Module("A", "./a2.js", "second", [])];
    assert FindModuleById(ms, "A") == Some(ms[0]);
    RootRendered(BuildResult(ms), "A", ms[0]);
    assert Render(ms, ms[0], [], 0) == [Header(0, "first", "A")];
    PrintedAs([Header(0, "first", "A")], ["first (A)"]);
  }
}

=== FILE: stats.dfy ===
/**
 The already-parsed build statistics: modules, the reasons each was included,
 and the linear lookup of a module by its id.
 */
module Stats {
  import opened Optional

  /** Why a module was included: the module that required it, if any.
      `userRequest` is carried but never read by the traversal. */
  datatype Reason = Reason(moduleId: Option<string>, userRequest: Option<string>)

  /** One module of the build; `identifier` is carried but never read. */
  datatype Module = Module(id: string, identifier: string, name: string, reasons: seq<Reason>)

  /** The whole parsed input: the modules in file order. */
  datatype BuildResult = BuildResult(modules: seq<Module>)

  /** The ids of all modules. */
  function Ids(modules: seq<Module>): set<string>
  {
    set m | m in modules :: m.id
  }

  /** Linear scan for the first module whose id is `id`. */
  function FindModuleById(modules: seq<Module>, id: string): (r: Option<Module>)
    ensures r.None? <==> id !in Ids(modules)
    ensures r.Some? ==> r.value in modules && r.value.id == id
    ensures r.Some? ==>
      exists k :: 0 <= k < |modules| && modules[k] == r.value &&
        forall j :: 0 <= j < k ==> modules[j].id != id
  {
    if |modules| == 0 then None
    else if modules[0].id == id then Some(modules[0])
    else
      var r := FindModuleById(modules[1..], id);
      assert modules == [modules[0]] + modules[1..];
      if r.Some? then
        var k :| 0 <= k < |modules[1..]| && modules[1..][k] == r.value &&
          forall j :: 0 <= j < k ==> modules[1..][j].id != id;
        assert modules[k + 1] == r.value;
        r
      else r
  }

  /** The scan stops at the first match: on duplicate ids the earliest module wins. */
  lemma FindFirstWins(modules: seq<Module>, i: nat)
    requires i < |modules|
    requires forall j :: 0 <= j < i ==> modules[j].id != modules[i].id
    ensures FindModuleById(modules, modules[i].id) == Some(modules[i])
  {
  }

  /** Modules appended after a match never change the lookup; before a match they are
      the only place it can look. */
  lemma {:induction false} FindAppend(front: seq<Module>, back: seq<Module>, id: string)
    ensures id in Ids(front) ==> FindModuleById(front + back, id) == FindModuleById(front, id)
    ensures id !in Ids(front) ==> FindModuleById(front + back, id) == FindModuleById(back, id)
  {
    if |front| > 0 {
      assert (front + back)[1..] == front[1..] + back;
      assert Ids(front) == {front[0].id} + Ids(front[1..]) by {
        assert front == [front[0]] + front[1..];
      }
      FindAppend(front[1..], back, id);
    } else {
      assert front + back == back;
    }
  }
}
